=== FILE: README.md ===
# Health and wellness backend: goal progress and workout logging, in Dafny

This project models the two controllers that hold the logic of the Health and
Wellness backend, an Express/Mongoose service for logging workouts and food
and tracking fitness goals.

- **Goal progress** (`controllers/goalController.js`). Each goal has a cadence
  (`Daily`, `Weekly` or `Monthly`, the goal's `type` field) and a category
  (`Calories`, `Workout` or `Balance`).
  - When goals are listed, each one gets a time window that ends now. It
    starts at midnight of today, of the latest Sunday, or of the first of the
    month.
  - The user's workouts and food entries whose `createdAt` lies in the window
    are totalled.
  - The category test decides whether the goal is complete.
  - The stored `completed` flag is rewritten only when it changed.
  - Each goal is returned with its three totals.
  - A goal is deleted only by its owner.
- **Workouts** (`controllers/workoutController.js`).
  - A MET-based calorie estimate.
  - Creating a workout: validation, supplied or estimated calories, and
    optional `distance` and `user`.
  - Deleting a workout, where another user's record is refused.
  - The summary totals, with an all-zero default.

Modules:

- `Wrappers`: `Option`, `Result` and the `Reply` (status code and message)
  of an HTTP answer.
- `Folds`: the `reduce((s, x) => s + f(x), 0)` total and a counting fold.
- `Calendar`: the day arithmetic of ECMAScript `Date` (ECMA-262, section
  21.4.1). Day numbers count from 1 January 1970. `MakeDay` rolls
  out-of-range dates over into neighbouring months and years. For years from
  100 on this is what `new Date(y, m, d)` does. `now` is a local calendar date
  of a year from 100 on, plus a time of day.
- `JsValues`: the primitive JavaScript values a request body field can hold, and the
  coercions the controllers apply: truthiness, `Number(x)` and `trim`.
- `Goals`: the window, filters, totals, category test, listing, and the
  `GoalStore` class. `GoalStore` holds the goal collection and counts `save()`
  calls. Its methods reconcile, list and delete in place.
- `Workouts`: the estimator, the createWorkout validation and the
  `BuildPayload` method, which builds the payload and adds optional fields in
  place. Also the `WorkoutStore` class (create and delete in place) and the
  summary.

Time values are integer milliseconds of local time. JavaScript numbers are
integers or NaN. Each collection is a sequence of records. The collections the
controllers change are fields of the store classes: goals in `GoalStore`,
workouts in `WorkoutStore`. The collections `getGoals` only reads, workouts and
food entries, are parameters. They are given as the goal controller reads them
(`WorkoutEntry`), and `Goals.EntryOf` maps a workout `createWorkout` stored to
that view. The current time, the id the database assigns and the signed-in user
are parameters.

## Model

| member | source | states |
|---|---|---|
| Calendar.MakeDay | controllers/goalController.js:10-15 | definition: the day number of a year, month and date, with months outside 0..11 and dates outside the month rolled into the neighbouring year or month; its properties are the Calendar lemmas below |
| Calendar.WeekDay | controllers/goalController.js:12 | `getDay()` of a day number is in 0..6 (0 is Sunday) |
| Calendar.DaysInMonth | controllers/goalController.js:10-15 | a month has 28 to 31 days |
| Calendar.DayFromYearStep | controllers/goalController.js:12-13 | consecutive years start exactly `DaysInYear` days apart, so the leap-day terms of the day count follow the Gregorian rule |
| Calendar.MakeDayInYear | controllers/goalController.js:10-15 | for a month in 0..11 nothing rolls over: the day number is the year's first day plus the days of the earlier months plus `date - 1` |
| Calendar.NextMonthStart | controllers/goalController.js:12-13 | the next month starts `DaysInMonth` days after the first of this month, December into January included |
| Calendar.DateZeroIsPreviousMonthEnd | controllers/goalController.js:12-13 | date 0 of a month is the last day of the previous month (31 December of the year before, for January) |
| Calendar.EarlyDateRollsBack | controllers/goalController.js:12-13 | a date from -6 to 0 is a real date of the previous month (December of the year before, for January), and names the same day |
| Goals.GetDateRange | controllers/goalController.js:6-18 | the window ends at now, and has a start exactly for `Daily`, `Weekly` and `Monthly` |
| Goals.DateRangeStart | controllers/goalController.js:9-17 | the start is a midnight no later than the end. `Daily` starts at midnight of now's date. `Weekly` starts on a Sunday 0 to 6 days before now's date, and on now's date when now is a Sunday. `Monthly` starts on the 1st of now's month, `date - 1` days back |
| Goals.MidnightDay | controllers/goalController.js:10 | a midnight time value is a whole number of days, and division recovers its day |
| Goals.SundayBefore | controllers/goalController.js:12 | stepping back `getDay()` days from any day lands on a Sunday |
| Goals.WeeklyStartIsCalendarDate | controllers/goalController.js:11-13 | `getDate() - getDay()` names a real date: in now's month, or, when non-positive, the matching day of the previous month (December of the previous year for January), which is the same day |
| Goals.InWindow | controllers/goalController.js:52 | definition of the condition `createdAt: { $gte: start, $lte: end }`: inclusive at both ends. An unset `start` is read as no lower bound (see Left out); its property is `BoundsInclusive` |
| Goals.BoundsInclusive | controllers/goalController.js:52 | both ends of a window lie inside it |
| Goals.WorkoutsInRange | controllers/goalController.js:50-53 | the selected workouts are exactly those stored for the user with `start <= createdAt <= end` |
| Goals.WorkoutsInRangeCounts | controllers/goalController.js:50-53 | each selected workout appears as often as it is stored, and no other workout appears |
| Goals.FoodsInRange | controllers/goalController.js:56-59 | the selected food entries are exactly those stored for the user with `start <= createdAt <= end` |
| Goals.FoodsInRangeCounts | controllers/goalController.js:56-59 | each selected food entry appears as often as it is stored, and no other entry appears |
| Goals.EntryOf | models/Workout.js:4-14 | a workout stored by `createWorkout` keeps its user and creation time in the goal controller's view, and totals as its own duration and calories |
| Goals.WorkoutCalories | controllers/goalController.js:66 | a non-zero `caloriesBurned` is used. Otherwise `calories` is used, or 0. The result is 0 exactly when neither field holds a non-zero number |
| Goals.WorkoutMinutes | controllers/goalController.js:62 | definition: the duration, or 0 when it is missing or 0; its totals are stated by `AddWorkout` and `ProgressBounds` |
| Goals.FoodCalories | controllers/goalController.js:69 | definition: the calories, or 0 when they are missing or 0; its totals are stated by `AddFood` and `ProgressBounds` |
| Goals.ComputeProgress | controllers/goalController.js:61-69 | definition: the three totals over the user's records in the window; its properties are `ProgressBounds`, `AddWorkout` and `AddFood` |
| Goals.ProgressBounds | controllers/goalController.js:61-69 | no negative fields give no negative total, and no records give three zero totals |
| Goals.AddWorkout | controllers/goalController.js:61-68 | one more workout changes the minutes and burned calories by its own duration and burned calories (`caloriesBurned`, else `calories`, else 0) when it is the user's and in the window, and nothing otherwise |
| Goals.AddFood | controllers/goalController.js:69 | one more food entry changes the food total by its calories (0 when unset) when it is the user's and in the window, and nothing otherwise |
| Goals.IsCompleted | controllers/goalController.js:72-81 | only `Calories`, `Workout` and `Balance` goals can be complete, and any other category never is |
| Goals.CompletionMonotone | controllers/goalController.js:72-81 | less food, more minutes and more burned calories never turn a complete goal incomplete, in any category |
| Goals.OwnedBy | controllers/goalController.js:43 | the listed goals are exactly the stored goals of the user |
| Goals.OwnedByCounts | controllers/goalController.js:43 | each of the user's goals appears as often as it is stored, and no other goal appears |
| Goals.GoalProgress | controllers/goalController.js:47-69 | definition: the totals over the goal's own window (`GetDateRange` of its cadence), the progress `ListingItems` returns |
| Goals.Refresh | controllers/goalController.js:72-85 | the goal with its `completed` flag set to the computed value; no other field changes |
| Goals.Stale | controllers/goalController.js:84 | definition of the test before `save()`: the goal is the user's and its stored flag differs from the computed one |
| Goals.StaleCount | controllers/goalController.js:84-87 | definition of the number of `save()` calls a listing makes; its properties are `NoSaveIffUpToDate` and `StaleAtMostOwned`, and `GetGoals` counts exactly it |
| Goals.Refreshed | controllers/goalController.js:45-98 | after a listing each of the user's goals carries its computed flag, and every other goal is unchanged |
| Goals.Listing | controllers/goalController.js:89-96 | definition: one item per goal of the user, in stored order; its properties are `ListingItems` and `ListingIdempotent` |
| Goals.ListingItems | controllers/goalController.js:89-96 | the response has one item per goal of the user, in stored order. Each item is the goal with its updated flag and exactly the three totals of its window |
| Goals.NoSaveIffUpToDate | controllers/goalController.js:84-87 | a listing writes nothing exactly when every goal of the user already holds its computed flag |
| Goals.StaleAtMostOwned | controllers/goalController.js:84-87 | a listing writes at most once per goal of the user |
| Goals.ListingIdempotent | controllers/goalController.js:84-96 | listing again with the same records and the same `now` writes nothing, leaves the store as it is, and returns the same items |
| Goals.FindOwned | controllers/goalController.js:109-112 | the goal found has the id and the owner, none before it has both, and none is found only when no goal has both |
| Goals.GoalStore.Reconcile | controllers/goalController.js:84-87 | afterwards the flag equals the computed value. A write happens exactly when it differed, and no other goal or field changes |
| Goals.GoalStore.EvaluateGoal | controllers/goalController.js:46-97 | evaluating a goal replaces it by its refreshed form, counts a save only when that changed it, and returns it with its progress |
| Goals.GoalStore.Advance | controllers/goalController.js:46-97 | one more goal processed extends the refreshed prefix, the items and the save count by that goal's share |
| Goals.GoalStore.GetGoals | controllers/goalController.js:41-104 | the store becomes `Refreshed` of the old store, the response is the listing of the old store, and the saves grow by the stale count |
| Goals.GoalStore.DeleteGoal | controllers/goalController.js:107-120 | 200 "Goal deleted" exactly when a goal has both the id and the owner. The first such goal is removed and the others keep their order. Otherwise 404 "Goal not found" with the store unchanged |
| Folds.Sum | controllers/goalController.js:61-69 | a total of non-negative values is non-negative, and a total of zeros is zero |
| Folds.SumSnoc | controllers/goalController.js:61-69 | totalling one more record adds that record's value |
| Folds.SumPositive | controllers/workoutController.js:127 | a non-empty total of positive values is positive |
| Folds.Count | controllers/goalController.js:84-87 | a count never exceeds the number of elements |
| Folds.CountZeroIff | controllers/goalController.js:84-87 | the count is zero exactly when no element satisfies the test |
| JsValues.Truthy | controllers/workoutController.js:30 | definition of JavaScript truthiness: `undefined`, `null`, `false`, 0, NaN and the empty string are falsy; its property is `FalsyIsNotPositive` |
| JsValues.OrZero | controllers/workoutController.js:51 | the numeric fallback to 0 keeps every finite number and maps NaN to 0 |
| JsValues.Trim | controllers/workoutController.js:48 | the result is no longer than the input, and has no white space at either end |
| JsValues.TrimSlice | controllers/workoutController.js:48 | the result is a middle slice of the input, with only white space cut on either side |
| JsValues.TrimIdempotent | controllers/workoutController.js:48 | trimming twice is trimming once |
| JsValues.TrimUnpadded | controllers/workoutController.js:43 | a string with no white space at either end is its own trim |
| JsValues.DigitsValue | controllers/workoutController.js:35 | a value is read exactly from a non-empty run of decimal digits |
| JsValues.LiteralValue | controllers/workoutController.js:35 | a trimmed non-blank string converts to a number exactly when it is an optionally signed run of decimal digits, and to NaN otherwise |
| JsValues.StringToNumber | controllers/workoutController.js:35 | a blank string converts to 0. Any other string converts to a number exactly when, trimmed, it is an optionally signed run of decimal digits; everything else is NaN |
| JsValues.DigitsOf | controllers/workoutController.js:43 | the printed form of a natural number is a non-empty run of decimal digits |
| JsValues.DigitsRoundTrip | controllers/workoutController.js:35 | reading printed digits back gives the number printed |
| JsValues.LiteralOfDecimal | controllers/workoutController.js:35 | a printed integer has no white space at either end and reads back, sign included, as the integer |
| JsValues.NumberOfDecimal | controllers/workoutController.js:35 | `Number(String(v))` is `v` for every integer, negative ones included |
| JsValues.ToNumber | controllers/workoutController.js:35 | definition of `Number(x)`: `undefined` is NaN, `null` is 0, booleans are 0 or 1, numbers are kept, strings go through `StringToNumber` |
| JsValues.FalsyIsNotPositive | controllers/workoutController.js:30-40 | a falsy duration never converts to a positive number, so the first 400 check only adds a message in front of the second |
| Workouts.Met | controllers/workoutController.js:11-22 | a listed type gets its table value, any other type gets 5, and a MET is between 3 and 12 |
| Workouts.IntensityPercent | controllers/workoutController.js:21 | the factor is 85/100 exactly for "Low", 115/100 exactly for "High", and 1 otherwise |
| Workouts.RoundHundredths | controllers/workoutController.js:23 | `Math.round(p / 100)`: the nearest integer, halves rounded up |
| Workouts.EstimateCalories | controllers/workoutController.js:10-24 | the estimate is never negative. It is the product MET × minutes × factor rounded half up, clamped at 0, and 0 when the duration is missing, zero or not a number |
| Workouts.SignOfProduct | controllers/workoutController.js:23 | with positive MET and factor, the product has the duration's sign |
| Workouts.MetAsWritten | controllers/workoutController.js:22 | the lookup as written gives NaN for the names every object inherits from `Object.prototype`, and the table value or 5 for every other type |
| Workouts.EstimateCaloriesAsWritten | controllers/workoutController.js:22-23 | the estimate as written is NaN for every inherited `Object.prototype` name, and the corrected estimate for every other type |
| Workouts.InheritedNameLosesEstimate | controllers/workoutController.js:22 | type "toString" with 30 minutes at "Medium" gives NaN as written (stored as 0 calories) against 150 corrected |
| Workouts.IntensityOrDefault | controllers/workoutController.js:50 | a non-empty intensity is kept, and an empty or missing one becomes "Medium" |
| Workouts.HasKind | controllers/workoutController.js:30 | definition of `type` being truthy: present and not the empty string; `Validate` states its use |
| Workouts.Validate | controllers/workoutController.js:30-40 | a body is accepted exactly when `type` is non-empty and `duration` converts to a positive number. Every refusal is a 400 |
| JsValues.PrintsNonBlank | controllers/workoutController.js:43 | definition of `String(v).trim() !== ""` for a present primitive: only a string can print blank, and it does when it trims to nothing |
| Workouts.CaloriesSupplied | controllers/workoutController.js:43 | definition of the test for supplied calories: not undefined, not null, and not printing blank; `CaloriesFor` states both outcomes |
| Workouts.CaloriesFor | controllers/workoutController.js:42-45 | non-blank supplied calories are converted and used (NaN becomes 0). Otherwise the estimate for the untrimmed type and the intensity defaulted to "Medium" is used, which is non-negative |
| Workouts.DistanceFor | controllers/workoutController.js:36 | distance is kept exactly when it is present and converts to a number |
| Workouts.DateFor | controllers/workoutController.js:52 | a supplied non-zero date is kept, and a missing one becomes now |
| Workouts.PayloadFor | controllers/workoutController.js:47-56 | the payload of an accepted body has the trimmed type and the converted positive duration. Its intensity is the supplied one, or "Medium" when it is missing or empty, and its calories are `CaloriesFor` (non-negative when none were supplied). Its distance is `DistanceFor`, present exactly when one converts. Its date is `DateFor`, and its user is the caller |
| Workouts.BuildPayload | controllers/workoutController.js:28-56 | refuses exactly the bodies `Validate` refuses, with its reply. Otherwise it builds the payload field by field, `distance` and `user` added only when given, and the result is `PayloadFor` |
| Workouts.SchemaAccepts | models/Workout.js:7-11 | definition of what `Workout.create` accepts: a non-empty type after trimming and an intensity from the enum; `CreateWorkout` answers 500 otherwise |
| Workouts.Stored | models/Workout.js:4-14 | definition of the stored document: the payload with `distance` defaulting to 0 and the creation time; `CreateWorkout` appends it |
| Workouts.IsObjectIdString | controllers/workoutController.js:90 | definition of `ObjectId.isValid` on a string as 24 hexadecimal digits (see Left out); `DeleteWorkout` answers 400 exactly when it fails |
| Workouts.FindById | controllers/workoutController.js:94-95 | the record found has the id, and none is found only when no record has it |
| Workouts.MayDelete | controllers/workoutController.js:97 | definition of the owner check: refused only when a signed-in caller and a stored owner differ; its properties are `OwnershipRule` |
| Workouts.OwnershipRule | controllers/workoutController.js:97-99 | the owner may delete, a different signed-in user may not, and deletion is allowed when either user is absent |
| Workouts.WorkoutStore.CreateWorkout | controllers/workoutController.js:26-65 | a refused body gets its 400 and stores nothing. A payload the schema rejects gets 500 "Server error" and stores nothing. Otherwise exactly the document for the payload is appended and returned. Every stored duration stays positive |
| Workouts.WorkoutStore.DeleteWorkout | controllers/workoutController.js:85-107 | 400 for an id that is not 24 hex digits and 404 for an unknown id, both with no change. 403 "Not allowed" for another user's record, with no change. Otherwise 200 "Deleted", removing exactly that record |
| Workouts.SummaryMatch | controllers/workoutController.js:114-120 | definition of the `$match` stage: the caller's records (all when signed out) with `from <= date <= to` for the bounds given; `Matching` and `MatchingCounts` state the filter |
| Workouts.Matches | controllers/workoutController.js:114-122 | definition: the `$match` test as a function on one record, which `GetSummary`'s count uses |
| Workouts.Matching | controllers/workoutController.js:114-122 | the matched records are exactly the caller's records (all records when signed out) with `from <= date <= to` |
| Workouts.MatchingCounts | controllers/workoutController.js:114-122 | each matching record is matched as often as it is stored, and no other record is |
| Workouts.MatchingSize | controllers/workoutController.js:121-129 | the number of matched records is the number of stored records that pass the `$match` test |
| Workouts.GetSummary | controllers/workoutController.js:112-134 | the count is the number of stored records that pass the `$match` test. It is zero exactly when nothing matches, and then all totals are zero |
| Workouts.SummaryMinutesPositive | controllers/workoutController.js:121-133 | over stored workouts, a summary of at least one workout has positive minutes |

## Left out

- Real clocks and time zones: `now` is a parameter, and local time is taken to have a zero offset with no daylight-saving shifts.
- Request parsing: string dates (`new Date(date)`, `req.query.from`/`to`) are not modelled. Dates are integers, and invalid dates (which Mongoose rejects) are not represented.
- JsValues.StringToNumber: only blank strings and optionally signed decimal integers are read. Fractions, exponents, hexadecimal/binary/octal literals and `Infinity` give NaN here.
- JavaScript numbers in general: numbers are integers or NaN. Fractional minutes, calories and distances, and IEEE-754 rounding, are not modelled.
- Workouts.EstimateCalories: the intensity factors are the exact rationals 85/100 and 115/100. With binary floating point, a product exactly on a half can round one unit differently.
- Arrays and objects in request bodies: `duration`, `distance` and `calories` are primitives here. The JSON body parser also delivers arrays and objects, which `Number`, `String` and truthiness treat through ToPrimitive. For example, `duration: [30]` is accepted as 30 minutes, `calories: []` prints blank and falls back to the estimate, and `calories: {}` is NaN and stored as 0. Such bodies are not modelled.
- Request bodies: `type` and `intensity` are strings when present. A non-string `type` (which `String(type)` would convert) is not modelled.
- Caller identity: `req.user && req.user._id` is one optional user id. A signed-in user without an `_id` is not modelled.
- Mongo mechanics: the query language, ObjectId casting (a malformed goal id gives 500) and `$sum`'s skipping of non-numbers. Only 24-hex-digit strings stand for `ObjectId.isValid`, which also accepts 12-byte strings.
- Goals.InWindow: for a goal of an unknown cadence `start` is undefined, and the model deliberately reads `$gte: undefined` as "no lower bound", totalling every record up to now. Mongoose most likely casts it to `$gte: null`, which matches no stored date, so the code probably totals nothing for such a goal. Mongoose's casting is not modelled.
- `Promise.all` in `getGoals`: goals are evaluated one after another, in stored order.
- `createGoal`, `getWorkouts`, authentication, routes and logging: wiring and foreign calls with no logic of their own.
- models/Goal.js is not part of this model. `completed` is a boolean, and a missing target is `None`, which compares false (a `null` target, which JavaScript compares as 0, is not represented).
- The goal categories are those the controller tests: `Calories`, `Workout` and `Balance`.
- Goals.GetGoals: the `save()` calls are counted, not performed. A failing save (500) is not modelled.
- Workouts.CaloriesFor: `createWorkout` is modelled with the corrected estimate. For the twelve type names inherited from `Object.prototype` the code as written stores 0 calories instead (see Findings).
- Years before 100: `new Date(y, m, d)` reads a year from 0 to 99 as 1900 + y. `MakeDay` does not, so `now` is restricted to years from 100 on (`DateTime.Valid`), where no such mapping applies.

## Findings

| source | as written | input that shows it | evidently intended | confidence | as-written member | corrected member |
|---|---|---|---|---|---|---|
| controllers/workoutController.js:22 | the MET lookup with a fallback to 5 looks `type` up on a plain object literal, so it also finds the names the object inherits from `Object.prototype`. The function found is truthy, so the default 5 is skipped and the product is NaN. `createWorkout` then falls back to 0 and stores 0 calories | type "toString", duration 30, intensity "Medium" | an unlisted type uses MET 5, giving 150 calories | high that the lookup finds inherited names; not executed | Workouts.InheritedNameLosesEstimate | Workouts.EstimateCalories |

=== FILE: calendar.dfy ===
/**
  The day arithmetic of ECMAScript's `Date` (ECMA-262, section 21.4.1 "Time Values
  and Time Range"), on which `new Date(year, month, date)`, `getDate()` and
  `getDay()` rest. Time values are integers counting milliseconds; day numbers
  count days from 1 January 1970 (day 0, a Thursday). Every time value here is a
  local time: the time-zone offset is taken to be zero.
 */
module Calendar {

  const MsPerDay: int := 86400000

  /** The day number of 1 January of `year` (DayFromYear; `/` rounds down for a positive divisor). */
  function DayFromYear(year: int): int {
    365 * (year - 1970) + (year - 1969) / 4 - (year - 1901) / 100 + (year - 1601) / 400
  }

  predicate InLeapYear(year: int) {
    year % 4 == 0 && (year % 100 != 0 || year % 400 == 0)
  }

  function DaysInYear(year: int): int {
    if InLeapYear(year) then 366 else 365
  }

  /** Length of month `month` (0 = January) of `year`. */
  function DaysInMonth(year: int, month: int): (n: int)
    requires 0 <= month < 12
    ensures 28 <= n <= 31
  {
    if month == 1 then (if InLeapYear(year) then 29 else 28)
    else if month == 3 || month == 5 || month == 8 || month == 10 then 30
    else 31
  }

  /** Days from 1 January of `year` to the first day of month `month`. */
  function DaysBeforeMonth(year: int, month: int): int
    requires 0 <= month <= 12
  {
    if month == 0 then 0 else DaysBeforeMonth(year, month - 1) + DaysInMonth(year, month - 1)
  }

  /**
    MakeDay(year, month, date): the day number of `date` of month `month`.
    A month outside 0..11 moves into a neighbouring year, and a date outside the
    month's range moves into a neighbouring month, as `new Date(y, m, d)` does.
   */
  function MakeDay(year: int, month: int, date: int): int {
    var y := year + month / 12;
    var m := month % 12;
    DayFromYear(y) + DaysBeforeMonth(y, m) + date - 1
  }

  /** `getDay()` of a day number: 0 is Sunday, 6 is Saturday (WeekDay). */
  function WeekDay(day: int): (w: int)
    ensures 0 <= w < 7
  {
    (day + 4) % 7
  }

  /** The leap-day terms of DayFromYear each step up in exactly the years the Gregorian rule names. */
  lemma LeapTerm4(year: int)
    ensures (year + 1 - 1969) / 4 - (year - 1969) / 4 == (if year % 4 == 0 then 1 else 0)
  {
    var x := year - 1968;
    assert x % 4 == year % 4;
  }

  lemma LeapTerm100(year: int)
    ensures (year + 1 - 1901) / 100 - (year - 1901) / 100 == (if year % 100 == 0 then 1 else 0)
  {
    var x := year - 1900;
    assert x % 100 == year % 100;
  }

  lemma LeapTerm400(year: int)
    ensures (year + 1 - 1601) / 400 - (year - 1601) / 400 == (if year % 400 == 0 then 1 else 0)
  {
    var x := year - 1600;
    assert x % 400 == year % 400;
  }

  /** Every year divisible by 400 is a century year. */
  lemma CenturyOfFourCenturies(year: int)
    ensures year % 400 == 0 ==> year % 100 == 0
  {
    if year % 400 == 0 {
      var m := 4 * (year / 400);
      assert year == 100 * m;
    }
  }

  /** Every century year is divisible by 4. */
  lemma FourOfCentury(year: int)
    ensures year % 100 == 0 ==> year % 4 == 0
  {
    if year % 100 == 0 {
      var m := 25 * (year / 100);
      assert year == 4 * m;
    }
  }

  /** Consecutive years are `DaysInYear` apart: the DayFromYear formula counts leap days exactly. */
  lemma {:induction false} DayFromYearStep(year: int)
    ensures DayFromYear(year + 1) == DayFromYear(year) + DaysInYear(year)
  {
    LeapTerm4(year);
    LeapTerm100(year);
    LeapTerm400(year);
    CenturyOfFourCenturies(year);
    FourOfCentury(year);
    var fours := (year + 1 - 1969) / 4 - (year - 1969) / 4;
    var hundreds := (year + 1 - 1901) / 100 - (year - 1901) / 100;
    var fourHundreds := (year + 1 - 1601) / 400 - (year - 1601) / 400;
    assert DayFromYear(year + 1) == DayFromYear(year) + 365 + fours - hundreds + fourHundreds;
  }

  /** The twelve months of a year add up to the year. */
  lemma YearOfMonths(year: int)
    ensures DaysBeforeMonth(year, 12) == DaysInYear(year)
  {
    var leap := if InLeapYear(year) then 1 else 0;
    assert DaysBeforeMonth(year, 1) == 31;
    assert DaysBeforeMonth(year, 2) == 59 + leap;
    assert DaysBeforeMonth(year, 3) == 90 + leap;
    assert DaysBeforeMonth(year, 4) == 120 + leap;
    assert DaysBeforeMonth(year, 5) == 151 + leap;
    assert DaysBeforeMonth(year, 6) == 181 + leap;
    assert DaysBeforeMonth(year, 7) == 212 + leap;
    assert DaysBeforeMonth(year, 8) == 243 + leap;
    assert DaysBeforeMonth(year, 9) == 273 + leap;
    assert DaysBeforeMonth(year, 10) == 304 + leap;
    assert DaysBeforeMonth(year, 11) == 334 + leap;
  }

  /** Within a year's twelve months no rollover happens: the day number is the year's start plus the days before. */
  lemma MakeDayInYear(year: int, month: int, date: int)
    requires 0 <= month < 12
    ensures MakeDay(year, month, date) == DayFromYear(year) + DaysBeforeMonth(year, month) + date - 1
  {
    assert month / 12 == 0 && month % 12 == month;
  }

  /** The month after month `month` starts `DaysInMonth` days after it, December included. */
  lemma {:induction false} NextMonthStart(year: int, month: int)
    requires 0 <= month < 12
    ensures MakeDay(year, month + 1, 1) == MakeDay(year, month, 1) + DaysInMonth(year, month)
  {
    MakeDayInYear(year, month, 1);
    if month == 11 {
      DayFromYearStep(year);
      YearOfMonths(year);
      assert MakeDay(year, 12, 1) == DayFromYear(year + 1);
    } else {
      MakeDayInYear(year, month + 1, 1);
    }
  }

  /** Date 0 of a month is the last day of the month before: the rollover `new Date(y, m, 0)` relies on. */
  lemma {:induction false} DateZeroIsPreviousMonthEnd(year: int, month: int)
    requires 0 <= month < 12
    ensures month > 0 ==> MakeDay(year, month, 0) == MakeDay(year, month - 1, DaysInMonth(year, month - 1))
    ensures month == 0 ==> MakeDay(year, month, 0) == MakeDay(year - 1, 11, 31)
  {
    MakeDayInYear(year, month, 0);
    if month > 0 {
      MakeDayInYear(year, month - 1, DaysInMonth(year, month - 1));
    } else {
      MakeDayInYear(year - 1, 11, 31);
      DayFromYearStep(year - 1);
      YearOfMonths(year - 1);
    }
  }

  /**
    A date up to six days before the 1st, `new Date(y, m, d)` with -6 <= d <= 0,
    is a real date of the month before (December of the year before, for January).
   */
  lemma {:induction false} EarlyDateRollsBack(year: int, month: int, date: int)
    requires 0 <= month < 12 && -6 <= date <= 0
    ensures var py := if month == 0 then year - 1 else year;
      var pm := if month == 0 then 11 else month - 1;
      IsCalendarDate(py, pm, DaysInMonth(py, pm) + date)
      && MakeDay(py, pm, DaysInMonth(py, pm) + date) == MakeDay(year, month, date)
  {
    var py := if month == 0 then year - 1 else year;
    var pm := if month == 0 then 11 else month - 1;
    DateZeroIsPreviousMonthEnd(year, month);
    MakeDayInYear(year, month, date);
    MakeDayInYear(year, month, 0);
    MakeDayInYear(py, pm, DaysInMonth(py, pm) + date);
    MakeDayInYear(py, pm, DaysInMonth(py, pm));
  }

  /** `month` (0 = January) and `date` name a day of the Gregorian calendar. */
  predicate IsCalendarDate(year: int, month: int, date: int) {
    0 <= month < 12 && 1 <= date <= DaysInMonth(year, month)
  }

  /**
    The local calendar fields of one instant, as `getFullYear()`, `getMonth()`
    (0 = January) and `getDate()` report them, plus the milliseconds since midnight.
   */
  datatype DateTime = DateTime(year: int, month: int, date: int, msOfDay: int) {

    /**
      The fields name a real calendar date and a time of day. Years before 100
      are excluded: the `Date` constructor reads a year 0..99 as 1900 + year,
      which MakeDay does not.
     */
    predicate Valid() {
      100 <= year && IsCalendarDate(year, month, date) && 0 <= msOfDay < MsPerDay
    }

    function Day(): int {
      MakeDay(year, month, date)
    }

    /** The time value of the instant. */
    function Time(): int {
      Day() * MsPerDay + msOfDay
    }

    /** `getDay()`: the day of the week, 0 = Sunday. */
    function GetDay(): int {
      WeekDay(Day())
    }
  }

  /** The time value of midnight at the start of day number `day`. */
  function Midnight(day: int): int {
    day * MsPerDay
  }
}

=== FILE: folds.dfy ===
/**
  The `reduce((s, x) => s + f(x), 0)` fold that the controllers use to total
  a field over a list of records.
 */
module Folds {

  /** Left fold of `f` over `xs` starting from 0, as `Array.prototype.reduce` does. */
  function Sum<T>(xs: seq<T>, f: T -> int): (r: int)
    ensures (forall i :: 0 <= i < |xs| ==> f(xs[i]) >= 0) ==> r >= 0
    ensures (forall i :: 0 <= i < |xs| ==> f(xs[i]) == 0) ==> r == 0
  {
    if |xs| == 0 then 0 else Sum(xs[..|xs| - 1], f) + f(xs[|xs| - 1])
  }

  /** Totalling one more element adds that element's value. */
  lemma SumSnoc<T>(xs: seq<T>, x: T, f: T -> int)
    ensures Sum(xs + [x], f) == Sum(xs, f) + f(x)
  {
    assert (xs + [x])[..|xs|] == xs;
  }

  /** A non-empty total of positive values is positive. */
  lemma {:induction false} SumPositive<T>(xs: seq<T>, f: T -> int)
    requires |xs| > 0
    requires forall i :: 0 <= i < |xs| ==> f(xs[i]) > 0
    ensures Sum(xs, f) > 0
  {
    if |xs| > 1 {
      SumPositive(xs[..|xs| - 1], f);
    }
  }

  /** The number of elements of `xs` that satisfy `p`. */
  function Count<T>(xs: seq<T>, p: T -> bool): (n: nat)
    ensures n <= |xs|
  {
    if |xs| == 0 then 0 else Count(xs[..|xs| - 1], p) + (if p(xs[|xs| - 1]) then 1 else 0)
  }

  /** No element is counted exactly when none satisfies `p`. */
  lemma {:induction false} CountZeroIff<T>(xs: seq<T>, p: T -> bool)
    ensures Count(xs, p) == 0 <==> forall i :: 0 <= i < |xs| ==> !p(xs[i])
  {
    if |xs| > 0 {
      var init := xs[..|xs| - 1];
      CountZeroIff(init, p);
      assert forall i :: 0 <= i < |init| ==> init[i] == xs[i];
    }
  }
}

=== FILE: goals.dfy ===
/**
  Goal progress evaluation (the goal controller): the time window of a goal,
  the totals of the user's workouts and food entries in that window, the
  completion test of the goal's category, and the reconciliation of the stored
  `completed` flag when goals are listed; plus owner-checked deletion.
 */
module Goals {
  import opened Wrappers
  import opened Calendar
  import opened Folds
  import Workouts

  type GoalId = nat

  // ---------------------------------------------------------------------------
  // Time window
  // ---------------------------------------------------------------------------

  /** The `{start, end}` pair of `getDateRange`; `start` is unset for an unknown cadence. */
  datatype Window = Window(start: Option<int>, end: int)

  /**
    The window of a goal whose `type` is `cadence`, at local instant `now`:
    it ends at `now` and starts at midnight of today, of the latest Sunday, or of
    the first of the month (see DateRangeStart).
   */
  function GetDateRange(cadence: string, now: DateTime): (w: Window)
    requires now.Valid()
    ensures w.end == now.Time()
    ensures w.start.Some? <==> cadence == "Daily" || cadence == "Weekly" || cadence == "Monthly"
  {
    var start :=
      if cadence == "Daily" then Some(Midnight(MakeDay(now.year, now.month, now.date)))
      else if cadence == "Weekly" then Some(Midnight(MakeDay(now.year, now.month, now.date - now.GetDay())))
      else if cadence == "Monthly" then Some(Midnight(MakeDay(now.year, now.month, 1)))
      else None;
    Window(start, now.Time())
  }

  /**
    Where a window starts: at a midnight no later than `now`; for Daily at the
    midnight that begins now's date, for Weekly at the midnight of a Sunday 0 to 6
    days before now's date (now's date itself on a Sunday), for Monthly at the
    midnight of the first of now's month.
   */
  lemma DateRangeStart(cadence: string, now: DateTime)
    requires now.Valid()
    ensures var w := GetDateRange(cadence, now);
      w.start.Some? ==> w.start.value % MsPerDay == 0 && w.start.value <= w.end
    ensures var w := GetDateRange(cadence, now);
      cadence == "Daily" ==> w.start == Some(now.Time() - now.msOfDay)
    ensures var w := GetDateRange(cadence, now);
      cadence == "Weekly" ==>
        var day := w.start.value / MsPerDay;
        WeekDay(day) == 0 && now.Day() - 6 <= day <= now.Day() && (now.GetDay() == 0 ==> day == now.Day())
    ensures var w := GetDateRange(cadence, now);
      cadence == "Monthly" ==>
        var day := w.start.value / MsPerDay;
        day == MakeDay(now.year, now.month, 1) && now.Day() - day == now.date - 1
  {
    MidnightDay(now.Day());
    MidnightDay(now.Day() - now.GetDay());
    MidnightDay(MakeDay(now.year, now.month, 1));
    SundayBefore(now.Day());
  }

  /** A midnight time value is a whole number of days, and its day is recovered by division. */
  lemma MidnightDay(day: int)
    ensures Midnight(day) % MsPerDay == 0 && Midnight(day) / MsPerDay == day
  {
  }

  /** Stepping back `getDay()` days from any day reaches a Sunday. */
  lemma SundayBefore(day: int)
    ensures WeekDay(day - WeekDay(day)) == 0
  {
    var q := (day + 4) / 7;
    assert day + 4 == 7 * q + WeekDay(day);
    assert day - WeekDay(day) + 4 == 7 * q;
  }

  /**
    `new Date(y, m, getDate() - getDay())` names a real calendar date: in now's
    month when the week began in it, otherwise in the month before (December of
    the year before, for January).
   */
  lemma {:induction false} WeeklyStartIsCalendarDate(now: DateTime)
    requires now.Valid()
    ensures var first := now.date - now.GetDay();
      var start := MakeDay(now.year, now.month, first);
      var py := if now.month == 0 then now.year - 1 else now.year;
      var pm := if now.month == 0 then 11 else now.month - 1;
      if first >= 1 then
        IsCalendarDate(now.year, now.month, first)
      else
        IsCalendarDate(py, pm, DaysInMonth(py, pm) + first)
        && MakeDay(py, pm, DaysInMonth(py, pm) + first) == start
  {
    var first := now.date - now.GetDay();
    if first < 1 {
      EarlyDateRollsBack(now.year, now.month, first);
    }
  }

  /** The Mongo range condition `createdAt: { $gte: start, $lte: end }`; an unset start bounds nothing. */
  predicate InWindow(t: int, w: Window) {
    (w.start.None? || w.start.value <= t) && t <= w.end
  }

  // ---------------------------------------------------------------------------
  // Records and totals
  // ---------------------------------------------------------------------------

  /** A workout document as the goal controller reads it; `caloriesBurned` is the older name of `calories`. */
  datatype WorkoutEntry = WorkoutEntry(
    user: Option<UserId>, createdAt: int,
    duration: Option<int>, caloriesBurned: Option<int>, calories: Option<int>)

  /**
    The goal controller's view of a workout that `createWorkout` stored. Such a
    document has no `caloriesBurned`, so its burned calories are its `calories`.
   */
  function EntryOf(w: Workouts.StoredWorkout): (e: WorkoutEntry)
    ensures e.user == w.user && e.createdAt == w.createdAt
    ensures WorkoutMinutes(e) == w.duration && WorkoutCalories(e) == w.calories
  {
    WorkoutEntry(w.user, w.createdAt, Some(w.duration), None, Some(w.calories))
  }

  datatype FoodEntry = FoodEntry(user: Option<UserId>, createdAt: int, calories: Option<int>)

  /** `x || 0` on a numeric field that may be absent. */
  function FieldOrZero(x: Option<int>): int {
    if x.Some? && x.value != 0 then x.value else 0
  }

  function WorkoutMinutes(w: WorkoutEntry): int {
    FieldOrZero(w.duration)
  }

  /** `w.caloriesBurned || w.calories || 0`: a zero `caloriesBurned` falls through to `calories`. */
  function WorkoutCalories(w: WorkoutEntry): (r: int)
    ensures FieldOrZero(w.caloriesBurned) != 0 ==> r == w.caloriesBurned.value
    ensures FieldOrZero(w.caloriesBurned) == 0 ==> r == FieldOrZero(w.calories)
    ensures r == 0 <==> FieldOrZero(w.caloriesBurned) == 0 && FieldOrZero(w.calories) == 0
  {
    if w.caloriesBurned.Some? && w.caloriesBurned.value != 0 then w.caloriesBurned.value
    else FieldOrZero(w.calories)
  }

  function FoodCalories(f: FoodEntry): int {
    FieldOrZero(f.calories)
  }

  /** `Workout.find({ user, createdAt: { $gte: start, $lte: end } })`, in stored order. */
  function WorkoutsInRange(ws: seq<WorkoutEntry>, user: UserId, win: Window): (r: seq<WorkoutEntry>)
    ensures |r| <= |ws|
    ensures forall w :: w in r <==> w in ws && w.user == Some(user) && InWindow(w.createdAt, win)
  {
    if |ws| == 0 then []
    else
      var w := ws[|ws| - 1];
      WorkoutsInRange(ws[..|ws| - 1], user, win)
        + (if w.user == Some(user) && InWindow(w.createdAt, win) then [w] else [])
  }

  /** `Food.find({ user, createdAt: { $gte: start, $lte: end } })`, in stored order. */
  function FoodsInRange(fs: seq<FoodEntry>, user: UserId, win: Window): (r: seq<FoodEntry>)
    ensures |r| <= |fs|
    ensures forall f :: f in r <==> f in fs && f.user == Some(user) && InWindow(f.createdAt, win)
  {
    if |fs| == 0 then []
    else
      var f := fs[|fs| - 1];
      FoodsInRange(fs[..|fs| - 1], user, win)
        + (if f.user == Some(user) && InWindow(f.createdAt, win) then [f] else [])
  }

  /** Each of the user's workouts in the window is selected as often as it is stored, and no other workout is. */
  lemma {:induction false} WorkoutsInRangeCounts(ws: seq<WorkoutEntry>, user: UserId, win: Window)
    ensures forall w ::
      multiset(WorkoutsInRange(ws, user, win))[w]
        == if w.user == Some(user) && InWindow(w.createdAt, win) then multiset(ws)[w] else 0
  {
    if |ws| > 0 {
      var init := ws[..|ws| - 1];
      WorkoutsInRangeCounts(init, user, win);
      assert ws == init + [ws[|ws| - 1]];
    }
  }

  /** Each of the user's food entries in the window is selected as often as it is stored, and no other entry is. */
  lemma {:induction false} FoodsInRangeCounts(fs: seq<FoodEntry>, user: UserId, win: Window)
    ensures forall f ::
      multiset(FoodsInRange(fs, user, win))[f]
        == if f.user == Some(user) && InWindow(f.createdAt, win) then multiset(fs)[f] else 0
  {
    if |fs| > 0 {
      var init := fs[..|fs| - 1];
      FoodsInRangeCounts(init, user, win);
      assert fs == init + [fs[|fs| - 1]];
    }
  }

  /** The `progress` object of a listed goal. */
  datatype Progress = Progress(totalWorkoutMinutes: int, totalWorkoutCalories: int, totalFoodCalories: int)

  /** The three totals over the user's records in the window. */
  function ComputeProgress(user: UserId, win: Window, ws: seq<WorkoutEntry>, fs: seq<FoodEntry>): Progress {
    var workouts := WorkoutsInRange(ws, user, win);
    var foods := FoodsInRange(fs, user, win);
    Progress(Sum(workouts, WorkoutMinutes), Sum(workouts, WorkoutCalories), Sum(foods, FoodCalories))
  }

  /** Records with no negative field give no negative total; no records give all zeros. */
  lemma ProgressBounds(user: UserId, win: Window, ws: seq<WorkoutEntry>, fs: seq<FoodEntry>)
    requires forall i :: 0 <= i < |ws| ==> FieldOrZero(ws[i].duration) >= 0 && FieldOrZero(ws[i].caloriesBurned) >= 0 && FieldOrZero(ws[i].calories) >= 0
    requires forall i :: 0 <= i < |fs| ==> FieldOrZero(fs[i].calories) >= 0
    ensures var p := ComputeProgress(user, win, ws, fs);
      p.totalWorkoutMinutes >= 0 && p.totalWorkoutCalories >= 0 && p.totalFoodCalories >= 0
    ensures ws == [] && fs == [] ==> ComputeProgress(user, win, ws, fs) == Progress(0, 0, 0)
  {
    var workouts := WorkoutsInRange(ws, user, win);
    var foods := FoodsInRange(fs, user, win);
    assert forall i :: 0 <= i < |workouts| ==> workouts[i] in ws;
    assert forall i :: 0 <= i < |foods| ==> foods[i] in fs;
  }

  /** A workout recorded later counts towards the totals exactly when it is the user's and inside the window. */
  lemma {:induction false} AddWorkout(user: UserId, win: Window, ws: seq<WorkoutEntry>, fs: seq<FoodEntry>, w: WorkoutEntry)
    ensures var before := ComputeProgress(user, win, ws, fs);
      var after := ComputeProgress(user, win, ws + [w], fs);
      if w.user == Some(user) && InWindow(w.createdAt, win) then
        after == Progress(before.totalWorkoutMinutes + WorkoutMinutes(w),
                          before.totalWorkoutCalories + WorkoutCalories(w),
                          before.totalFoodCalories)
      else after == before
  {
    var ws' := ws + [w];
    assert ws'[..|ws'| - 1] == ws;
    var sel := WorkoutsInRange(ws, user, win);
    if w.user == Some(user) && InWindow(w.createdAt, win) {
      assert WorkoutsInRange(ws', user, win) == sel + [w];
      SumSnoc(sel, w, WorkoutMinutes);
      SumSnoc(sel, w, WorkoutCalories);
    } else {
      assert WorkoutsInRange(ws', user, win) == sel + [];
      assert sel + [] == sel;
    }
  }

  /** A food entry recorded later counts towards the totals exactly when it is the user's and inside the window. */
  lemma {:induction false} AddFood(user: UserId, win: Window, ws: seq<WorkoutEntry>, fs: seq<FoodEntry>, f: FoodEntry)
    ensures var before := ComputeProgress(user, win, ws, fs);
      var after := ComputeProgress(user, win, ws, fs + [f]);
      if f.user == Some(user) && InWindow(f.createdAt, win) then
        after == before.(totalFoodCalories := before.totalFoodCalories + FoodCalories(f))
      else after == before
  {
    var fs' := fs + [f];
    assert fs'[..|fs'| - 1] == fs;
    var sel := FoodsInRange(fs, user, win);
    if f.user == Some(user) && InWindow(f.createdAt, win) {
      assert FoodsInRange(fs', user, win) == sel + [f];
      SumSnoc(sel, f, FoodCalories);
    } else {
      assert FoodsInRange(fs', user, win) == sel + [];
      assert sel + [] == sel;
    }
  }

  /** Both ends of a window are inside it: a record stamped exactly at `start` or at `end` is counted. */
  lemma BoundsInclusive(cadence: string, now: DateTime)
    requires now.Valid()
    ensures var w := GetDateRange(cadence, now);
      InWindow(w.end, w) && (w.start.Some? ==> InWindow(w.start.value, w))
  {
  }

  // ---------------------------------------------------------------------------
  // Completion
  // ---------------------------------------------------------------------------

  /** A goal document; the source's `type` field is called `cadence` here. */
  datatype Goal = Goal(
    id: GoalId, user: UserId, cadence: string, category: string,
    targetCalories: Option<int>, targetWorkoutMinutes: Option<int>, completed: bool)

  /**
    The category test. A comparison against an unset target is false in
    JavaScript, and a category other than the three named never completes.
   */
  function IsCompleted(g: Goal, p: Progress): (c: bool)
    ensures c ==> g.category == "Calories" || g.category == "Workout" || g.category == "Balance"
  {
    if g.category == "Calories" then
      g.targetCalories.Some? && p.totalFoodCalories <= g.targetCalories.value
    else if g.category == "Workout" then
      g.targetWorkoutMinutes.Some? && p.totalWorkoutMinutes >= g.targetWorkoutMinutes.value
    else if g.category == "Balance" then
      g.targetCalories.Some? && p.totalWorkoutCalories - p.totalFoodCalories >= g.targetCalories.value
    else false
  }

  /**
    Less food, more minutes and more calories burned never turn a completed goal
    back into an open one, whatever its category.
   */
  lemma CompletionMonotone(g: Goal, p: Progress, q: Progress)
    requires q.totalFoodCalories <= p.totalFoodCalories
    requires q.totalWorkoutMinutes >= p.totalWorkoutMinutes
    requires q.totalWorkoutCalories >= p.totalWorkoutCalories
    ensures IsCompleted(g, p) ==> IsCompleted(g, q)
  {
  }

  /** The progress a goal is judged on: the totals over its own window. */
  function GoalProgress(g: Goal, now: DateTime, ws: seq<WorkoutEntry>, fs: seq<FoodEntry>): Progress
    requires now.Valid()
  {
    ComputeProgress(g.user, GetDateRange(g.cadence, now), ws, fs)
  }

  /** The goal with its `completed` flag recomputed. */
  function Refresh(g: Goal, now: DateTime, ws: seq<WorkoutEntry>, fs: seq<FoodEntry>): (r: Goal)
    requires now.Valid()
    ensures r.(completed := g.completed) == g
  {
    g.(completed := IsCompleted(g, GoalProgress(g, now, ws, fs)))
  }

  // ---------------------------------------------------------------------------
  // Listing
  // ---------------------------------------------------------------------------

  /** One element of the `getGoals` response: the goal's fields and its `progress`. */
  datatype GoalWithProgress = GoalWithProgress(goal: Goal, progress: Progress)

  /** `Goal.find({ user })`: the user's goals in stored order. */
  function OwnedBy(gs: seq<Goal>, user: UserId): (r: seq<Goal>)
    ensures |r| <= |gs|
    ensures forall g :: g in r <==> g in gs && g.user == user
  {
    if |gs| == 0 then []
    else OwnedBy(gs[..|gs| - 1], user) + (if gs[|gs| - 1].user == user then [gs[|gs| - 1]] else [])
  }

  /** Each goal of the user is listed as often as it is stored, and no other goal is. */
  lemma {:induction false} OwnedByCounts(gs: seq<Goal>, user: UserId)
    ensures forall g :: multiset(OwnedBy(gs, user))[g] == if g.user == user then multiset(gs)[g] else 0
  {
    if |gs| > 0 {
      var init := gs[..|gs| - 1];
      OwnedByCounts(init, user);
      assert gs == init + [gs[|gs| - 1]];
    }
  }

  /** A goal as listing leaves it: refreshed when it is the user's, untouched otherwise. */
  function RefreshIfOwned(g: Goal, user: UserId, now: DateTime, ws: seq<WorkoutEntry>, fs: seq<FoodEntry>): Goal
    requires now.Valid()
  {
    if g.user == user then Refresh(g, now, ws, fs) else g
  }

  /** The store after listing: each of the user's goals refreshed, every other goal as it was. */
  function Refreshed(gs: seq<Goal>, user: UserId, now: DateTime, ws: seq<WorkoutEntry>, fs: seq<FoodEntry>): (r: seq<Goal>)
    requires now.Valid()
    ensures |r| == |gs|
    ensures forall i :: 0 <= i < |gs| ==> r[i] == RefreshIfOwned(gs[i], user, now, ws, fs)
  {
    if |gs| == 0 then []
    else Refreshed(gs[..|gs| - 1], user, now, ws, fs) + [RefreshIfOwned(gs[|gs| - 1], user, now, ws, fs)]
  }

  /** The response of a listing: one item per goal of the user, in order. */
  function Listing(gs: seq<Goal>, user: UserId, now: DateTime, ws: seq<WorkoutEntry>, fs: seq<FoodEntry>): (r: seq<GoalWithProgress>)
    requires now.Valid()
  {
    if |gs| == 0 then []
    else
      var g := gs[|gs| - 1];
      Listing(gs[..|gs| - 1], user, now, ws, fs)
        + (if g.user == user then [GoalWithProgress(Refresh(g, now, ws, fs), GoalProgress(g, now, ws, fs))] else [])
  }

  /** Whether listing rewrites a goal: it is the user's and its stored flag differs from the computed one. */
  function Stale(user: UserId, now: DateTime, ws: seq<WorkoutEntry>, fs: seq<FoodEntry>): Goal -> bool
    requires now.Valid()
  {
    (g: Goal) => g.user == user && Refresh(g, now, ws, fs) != g
  }

  /** How many of the user's goals hold a stale `completed` flag: the number of `save()` calls a listing makes. */
  function StaleCount(gs: seq<Goal>, user: UserId, now: DateTime, ws: seq<WorkoutEntry>, fs: seq<FoodEntry>): nat
    requires now.Valid()
  {
    Count(gs, Stale(user, now, ws, fs))
  }

  /** The response holds, in stored order, each of the user's goals refreshed, with its own progress. */
  lemma {:induction false} ListingItems(gs: seq<Goal>, user: UserId, now: DateTime, ws: seq<WorkoutEntry>, fs: seq<FoodEntry>)
    requires now.Valid()
    ensures var r := Listing(gs, user, now, ws, fs);
      |r| == |OwnedBy(gs, user)|
      && forall k :: 0 <= k < |r| ==>
        var g := OwnedBy(gs, user)[k];
        r[k] == GoalWithProgress(Refresh(g, now, ws, fs), GoalProgress(g, now, ws, fs))
  {
    if |gs| > 0 {
      ListingItems(gs[..|gs| - 1], user, now, ws, fs);
    }
  }

  /** A listing saves nothing exactly when every one of the user's goals already holds its computed flag. */
  lemma {:induction false} NoSaveIffUpToDate(gs: seq<Goal>, user: UserId, now: DateTime, ws: seq<WorkoutEntry>, fs: seq<FoodEntry>)
    requires now.Valid()
    ensures StaleCount(gs, user, now, ws, fs) == 0
      <==> forall i :: 0 <= i < |gs| && gs[i].user == user ==> Refresh(gs[i], now, ws, fs) == gs[i]
  {
    CountZeroIff(gs, Stale(user, now, ws, fs));
  }

  /** A listing saves at most once per goal of the user. */
  lemma {:induction false} StaleAtMostOwned(gs: seq<Goal>, user: UserId, now: DateTime, ws: seq<WorkoutEntry>, fs: seq<FoodEntry>)
    requires now.Valid()
    ensures StaleCount(gs, user, now, ws, fs) <= |OwnedBy(gs, user)|
  {
    if |gs| > 0 {
      StaleAtMostOwned(gs[..|gs| - 1], user, now, ws, fs);
      assert Stale(user, now, ws, fs)(gs[|gs| - 1]) ==> gs[|gs| - 1].user == user;
    }
  }

  /**
    Listing twice with the same records and the same `now` is listing once: the
    second run finds nothing stale, leaves the store as the first left it and
    returns the same items.
   */
  lemma {:induction false} ListingIdempotent(gs: seq<Goal>, user: UserId, now: DateTime, ws: seq<WorkoutEntry>, fs: seq<FoodEntry>)
    requires now.Valid()
    ensures var once := Refreshed(gs, user, now, ws, fs);
      Refreshed(once, user, now, ws, fs) == once
      && StaleCount(once, user, now, ws, fs) == 0
      && Listing(once, user, now, ws, fs) == Listing(gs, user, now, ws, fs)
  {
    if |gs| > 0 {
      var once := Refreshed(gs, user, now, ws, fs);
      var init := gs[..|gs| - 1];
      assert once[..|once| - 1] == Refreshed(init, user, now, ws, fs);
      ListingIdempotent(init, user, now, ws, fs);
    }
  }

  /** Replacing the element just after a prefix. */
  lemma ReplaceAt<T>(done: seq<T>, rest: seq<T>, x: T)
    requires |rest| > 0
    ensures (done + rest)[|done| := x] == done + [x] + rest[1..]
  {
  }

  /** One more goal of the store processed: how the three running results grow. */
  lemma PrefixStep(gs: seq<Goal>, i: nat, user: UserId, now: DateTime, ws: seq<WorkoutEntry>, fs: seq<FoodEntry>)
    requires now.Valid() && i < |gs|
    ensures var g := gs[i];
      Listing(gs[..i + 1], user, now, ws, fs)
        == Listing(gs[..i], user, now, ws, fs)
           + (if g.user == user then [GoalWithProgress(Refresh(g, now, ws, fs), GoalProgress(g, now, ws, fs))] else [])
    ensures Refreshed(gs[..i + 1], user, now, ws, fs)
      == Refreshed(gs[..i], user, now, ws, fs) + [RefreshIfOwned(gs[i], user, now, ws, fs)]
    ensures var g := gs[i];
      StaleCount(gs[..i + 1], user, now, ws, fs)
        == StaleCount(gs[..i], user, now, ws, fs) + (if g.user == user && Refresh(g, now, ws, fs) != g then 1 else 0)
  {
    assert gs[..i + 1][..i] == gs[..i];
  }

  // ---------------------------------------------------------------------------
  // The goal collection
  // ---------------------------------------------------------------------------

  /** No two goals share an id. */
  ghost predicate UniqueGoalIds(gs: seq<Goal>) {
    forall i, j :: 0 <= i < j < |gs| ==> gs[i].id != gs[j].id
  }

  /** The first goal with this id and this owner: what `findOneAndDelete({ _id, user })` selects. */
  function FindOwned(gs: seq<Goal>, id: GoalId, user: UserId): (r: Option<nat>)
    ensures r.Some? ==> r.value < |gs| && gs[r.value].id == id && gs[r.value].user == user
    ensures r.Some? ==> forall k :: 0 <= k < r.value ==> !(gs[k].id == id && gs[k].user == user)
    ensures r.None? ==> forall k :: 0 <= k < |gs| ==> !(gs[k].id == id && gs[k].user == user)
  {
    if |gs| == 0 then None
    else if gs[0].id == id && gs[0].user == user then Some(0)
    else match FindOwned(gs[1..], id, user)
      case None => None
      case Some(k) => Some(k + 1)
  }

  /** The stored goals, and a count of the `save()` calls made on them. */
  class GoalStore {
    var goals: seq<Goal>
    var saves: nat

    ghost predicate Valid()
      reads this
    {
      UniqueGoalIds(goals)
    }

    constructor (initial: seq<Goal>)
      requires UniqueGoalIds(initial)
      ensures Valid() && goals == initial && saves == 0
    {
      goals := initial;
      saves := 0;
    }

    /**
      `if (goal.completed !== completed) { goal.completed = completed; await goal.save(); }`
      for the goal at position `i`.
     */
    method Reconcile(i: nat, completed: bool) returns (wrote: bool)
      requires Valid() && i < |goals|
      modifies this
      ensures Valid()
      ensures wrote <==> old(goals[i].completed) != completed
      ensures goals == old(goals)[i := old(goals[i]).(completed := completed)]
      ensures goals[i].completed == completed
      ensures saves == old(saves) + (if wrote then 1 else 0)
    {
      wrote := goals[i].completed != completed;
      if wrote {
        goals := goals[i := goals[i].(completed := completed)];
        saves := saves + 1;
      }
    }

    /**
      The per-goal callback of `getGoals`: window, totals, category test,
      reconciliation of the flag, and the goal with its `progress`.
     */
    method EvaluateGoal(i: nat, user: UserId, now: DateTime, workouts: seq<WorkoutEntry>, foods: seq<FoodEntry>)
      returns (item: GoalWithProgress)
      requires Valid() && now.Valid() && i < |goals| && goals[i].user == user
      modifies this
      ensures Valid()
      ensures goals == old(goals)[i := Refresh(old(goals[i]), now, workouts, foods)]
      ensures item == GoalWithProgress(Refresh(old(goals[i]), now, workouts, foods), GoalProgress(old(goals[i]), now, workouts, foods))
      ensures saves == old(saves) + (if Refresh(old(goals[i]), now, workouts, foods) != old(goals[i]) then 1 else 0)
    {
      var goal := goals[i];
      var window := GetDateRange(goal.cadence, now);
      var progress := ComputeProgress(user, window, workouts, foods);
      var completed := IsCompleted(goal, progress);
      var _ := Reconcile(i, completed);
      item := GoalWithProgress(goals[i], progress);
    }

    /**
      After `getGoals` has visited the first `i` goals of `initial`: those are
      refreshed when they are the user's, the rest are untouched, and the items
      and the saves made so far are those of a listing of that prefix.
     */
    ghost predicate Reached(i: nat, user: UserId, now: DateTime, workouts: seq<WorkoutEntry>, foods: seq<FoodEntry>,
                            initial: seq<Goal>, saves0: nat, items: seq<GoalWithProgress>)
      reads this
    {
      now.Valid() && i <= |initial|
      && goals == Refreshed(initial[..i], user, now, workouts, foods) + initial[i..]
      && items == Listing(initial[..i], user, now, workouts, foods)
      && saves == saves0 + StaleCount(initial[..i], user, now, workouts, foods)
    }

    /**
      One turn of `getGoals`'s loop: the goal at `i` is evaluated when it is the
      user's and skipped otherwise.
     */
    method Advance(i: nat, user: UserId, now: DateTime, workouts: seq<WorkoutEntry>, foods: seq<FoodEntry>,
                   ghost initial: seq<Goal>, ghost saves0: nat, items: seq<GoalWithProgress>)
      returns (items': seq<GoalWithProgress>)
      requires Valid() && i < |initial| && Reached(i, user, now, workouts, foods, initial, saves0, items)
      modifies this
      ensures Valid() && Reached(i + 1, user, now, workouts, foods, initial, saves0, items')
    {
      PrefixStep(initial, i, user, now, workouts, foods);
      ReplaceAt(Refreshed(initial[..i], user, now, workouts, foods), initial[i..], RefreshIfOwned(initial[i], user, now, workouts, foods));
      items' := items;
      if goals[i].user == user {
        var item := EvaluateGoal(i, user, now, workouts, foods);
        items' := items + [item];
      }
    }

    /**
      `getGoals`: evaluate each of the user's goals in turn and collect the
      results in order.
     */
    method GetGoals(user: UserId, now: DateTime, workouts: seq<WorkoutEntry>, foods: seq<FoodEntry>)
      returns (items: seq<GoalWithProgress>)
      requires Valid() && now.Valid()
      modifies this
      ensures Valid()
      ensures goals == Refreshed(old(goals), user, now, workouts, foods)
      ensures items == Listing(old(goals), user, now, workouts, foods)
      ensures saves == old(saves) + StaleCount(old(goals), user, now, workouts, foods)
    {
      ghost var initial := goals;
      ghost var saves0 := saves;
      items := [];
      var i := 0;
      assert initial[..0] == [] && initial[0..] == initial;
      while i < |goals|
        invariant |goals| == |initial| && i <= |initial|
        invariant Valid() && Reached(i, user, now, workouts, foods, initial, saves0, items)
      {
        items := Advance(i, user, now, workouts, foods, initial, saves0, items);
        i := i + 1;
      }
      assert initial[..i] == initial && initial[i..] == [];
    }

    /** `deleteGoal`: remove the goal only when both its id and its owner match; otherwise 404. */
    method DeleteGoal(id: GoalId, user: UserId) returns (reply: Reply)
      requires Valid()
      modifies this
      ensures Valid() && saves == old(saves)
      ensures reply.status == 200 || reply.status == 404
      ensures reply.status == 200 <==> exists k :: 0 <= k < |old(goals)| && old(goals)[k].id == id && old(goals)[k].user == user
      ensures reply.status == 404 ==> goals == old(goals) && reply.message == "Goal not found"
      ensures reply.status == 200 ==>
        reply.message == "Goal deleted" && |goals| == |old(goals)| - 1
        && (forall g :: g in goals <==> g in old(goals) && g.id != id)
      ensures FindOwned(old(goals), id, user).Some? ==>
        var k := FindOwned(old(goals), id, user).value;
        reply == Reply(200, "Goal deleted") && goals == old(goals)[..k] + old(goals)[k + 1..]
    {
      match FindOwned(goals, id, user)
      case None =>
        reply := Reply(404, "Goal not found");
      case Some(k) =>
        goals := goals[..k] + goals[k + 1..];
        reply := Reply(200, "Goal deleted");
    }
  }
}

=== FILE: js_values.dfy ===
/**
  The primitive JavaScript values a request body field can hold and the coercions the
  controllers apply to them: truthiness (`!x`, `x || d`), `Number(x)` and
  `String.prototype.trim`. Numbers are integers here.
 */
module JsValues {
  import opened Wrappers

  /** A JavaScript number: an integer or NaN. */
  datatype Number = Finite(value: int) | NaN

  datatype JsValue = Undefined | Null | Bool(b: bool) | Num(n: Number) | Str(s: string)

  /** What `if (v)` and `v || d` test: false for undefined, null, false, 0, NaN and "". */
  predicate Truthy(v: JsValue) {
    match v
    case Undefined => false
    case Null => false
    case Bool(b) => b
    case Num(n) => n.Finite? && n.value != 0
    case Str(s) => s != ""
  }

  /** `x !== undefined && x !== null`. */
  predicate Present(v: JsValue) {
    !v.Undefined? && !v.Null?
  }

  /** `n || 0` on a number: NaN and 0 both give 0. */
  function OrZero(n: Number): (r: int)
    ensures n.Finite? ==> r == n.value
    ensures n.NaN? ==> r == 0
  {
    if n.Finite? then n.value else 0
  }

  /**
    The characters `trim` removes: ECMAScript's WhiteSpace (tab, vertical tab,
    form feed, U+FEFF and the space separators) and LineTerminator code points.
   */
  predicate IsSpace(c: char) {
    c == ' ' || c == '\t' || c == '\n' || c == '\r' || c == '\U{000B}' || c == '\U{000C}'
    || c == '\U{00A0}' || c == '\U{1680}' || ('\U{2000}' <= c <= '\U{200A}')
    || c == '\U{2028}' || c == '\U{2029}' || c == '\U{202F}' || c == '\U{205F}'
    || c == '\U{3000}' || c == '\U{FEFF}'
  }

  function TrimStart(s: string): (r: string)
    ensures |r| <= |s| && r == s[|s| - |r|..]
    ensures forall i :: 0 <= i < |s| - |r| ==> IsSpace(s[i])
    ensures r == [] || !IsSpace(r[0])
  {
    if s != [] && IsSpace(s[0]) then TrimStart(s[1..]) else s
  }

  function TrimEnd(s: string): (r: string)
    ensures |r| <= |s| && r == s[..|r|]
    ensures forall i :: |r| <= i < |s| ==> IsSpace(s[i])
    ensures r == [] || !IsSpace(r[|r| - 1])
  {
    if s != [] && IsSpace(s[|s| - 1]) then TrimEnd(s[..|s| - 1]) else s
  }

  /** `s.trim()`: `s` without its leading and trailing white space. */
  function Trim(s: string): (r: string)
    ensures |r| <= |s|
    ensures r == [] || (!IsSpace(r[0]) && !IsSpace(r[|r| - 1]))
  {
    TrimWitness(s, TrimEnd(s), TrimStart(TrimEnd(s)));
    TrimStart(TrimEnd(s))
  }

  /**
    What `trim` removes is white space: the result is the slice of `s` that ends
    where `TrimEnd` stops, and only white space lies outside it.
   */
  lemma TrimSlice(s: string)
    ensures var j := |TrimEnd(s)|; var i := j - |Trim(s)|;
      0 <= i <= j <= |s| && Trim(s) == s[i..j]
      && (forall k :: 0 <= k < i ==> IsSpace(s[k]))
      && (forall k :: j <= k < |s| ==> IsSpace(s[k]))
  {
    TrimWitness(s, TrimEnd(s), Trim(s));
  }

  lemma TrimWitness(s: string, e: string, r: string)
    requires e == TrimEnd(s) && r == TrimStart(e)
    ensures 0 <= |e| - |r| <= |e| <= |s| && r == s[|e| - |r|..|e|]
    ensures forall k :: 0 <= k < |e| - |r| ==> IsSpace(s[k])
    ensures forall k :: |e| <= k < |s| ==> IsSpace(s[k])
    ensures r == [] || (!IsSpace(r[0]) && !IsSpace(r[|r| - 1]))
  {
    var i := |e| - |r|;
    assert e == s[..|e|];
    assert r == e[i..];
    assert e[i..] == s[i..|e|];
    forall k | 0 <= k < i ensures IsSpace(s[k]) {
      assert s[k] == e[k];
    }
    if r != [] {
      assert r[|r| - 1] == e[|e| - 1];
    }
  }

  /** Trimming twice is trimming once. */
  lemma TrimIdempotent(s: string)
    ensures Trim(Trim(s)) == Trim(s)
  {
    var t := Trim(s);
    if t != [] {
      assert TrimEnd(t) == t;
      assert TrimStart(t) == t;
    }
  }

  predicate IsDigit(c: char) {
    '0' <= c <= '9'
  }

  /** A non-empty run of decimal digits. */
  predicate AllDigits(s: string) {
    s != [] && forall i :: 0 <= i < |s| ==> IsDigit(s[i])
  }

  /** The value of a non-empty run of decimal digits, read left to right. */
  function DigitsValue(s: string): (r: Option<nat>)
    ensures r.Some? <==> AllDigits(s)
  {
    if s == [] then None
    else if !IsDigit(s[|s| - 1]) then None
    else if |s| == 1 then Some(s[0] as int - '0' as int)
    else match DigitsValue(s[..|s| - 1])
      case None => None
      case Some(v) => Some(10 * v + (s[|s| - 1] as int - '0' as int))
  }

  /** An optional sign followed by a non-empty run of decimal digits. */
  predicate IsIntegerLiteral(t: string) {
    AllDigits(if t != [] && (t[0] == '-' || t[0] == '+') then t[1..] else t)
  }

  /** `Number` of a trimmed, non-blank string: the value of an integer literal, otherwise NaN. */
  function LiteralValue(t: string): (n: Number)
    ensures n.Finite? <==> IsIntegerLiteral(t)
  {
    var signed := t != [] && (t[0] == '-' || t[0] == '+');
    var digits := if signed then t[1..] else t;
    match DigitsValue(digits)
    case None => NaN
    case Some(v) => Finite(if signed && t[0] == '-' then -(v as int) else v)
  }

  /**
    `Number(s)` for a string: blank gives 0, an optionally signed run of decimal
    digits gives its value, anything else gives NaN.
   */
  function StringToNumber(s: string): (n: Number)
    ensures Trim(s) == [] ==> n == Finite(0)
    ensures n.Finite? <==> Trim(s) == [] || IsIntegerLiteral(Trim(s))
  {
    var t := Trim(s);
    if t == [] then Finite(0) else LiteralValue(t)
  }

  /** The decimal digits of `v`, most significant first, as `String(v)` prints them. */
  function DigitsOf(v: nat): (s: string)
    ensures AllDigits(s)
  {
    var last := ('0' as int + v % 10) as char;
    if v < 10 then [last] else DigitsOf(v / 10) + [last]
  }

  /** `String(v)` for an integer: a minus sign in front of a negative value's digits. */
  function DecimalString(v: int): string {
    if v < 0 then "-" + DigitsOf(-v) else DigitsOf(v)
  }

  /** Reading back printed digits gives the value printed. */
  lemma {:induction false} DigitsRoundTrip(v: nat)
    ensures DigitsValue(DigitsOf(v)) == Some(v)
  {
    var s := DigitsOf(v);
    if v >= 10 {
      DigitsRoundTrip(v / 10);
      assert s[..|s| - 1] == DigitsOf(v / 10);
    }
  }

  /** A string that starts and ends with a non-space character is its own trim. */
  lemma TrimUnpadded(s: string)
    requires s != [] && !IsSpace(s[0]) && !IsSpace(s[|s| - 1])
    ensures Trim(s) == s
  {
    assert TrimEnd(s) == s;
    assert TrimStart(s) == s;
  }

  /** A printed integer reads back as a literal of the same value, with no white space at either end. */
  lemma LiteralOfDecimal(v: int)
    ensures var s := DecimalString(v);
      s != [] && !IsSpace(s[0]) && !IsSpace(s[|s| - 1]) && LiteralValue(s) == Finite(v)
  {
    var s := DecimalString(v);
    if v < 0 {
      DigitsRoundTrip(-v);
      assert s[1..] == DigitsOf(-v);
    } else {
      DigitsRoundTrip(v);
    }
  }

  /** `Number(String(v)) == v` for every integer `v`. */
  lemma NumberOfDecimal(v: int)
    ensures StringToNumber(DecimalString(v)) == Finite(v)
  {
    LiteralOfDecimal(v);
    TrimUnpadded(DecimalString(v));
  }

  /** `Number(v)` (also unary `+v`). */
  function ToNumber(v: JsValue): Number {
    match v
    case Undefined => NaN
    case Null => Finite(0)
    case Bool(b) => Finite(if b then 1 else 0)
    case Num(n) => n
    case Str(s) => StringToNumber(s)
  }

  /**
    `String(v).trim() !== ""` for a present value: only a string of white space
    prints blank (numbers and booleans never do).
   */
  predicate PrintsNonBlank(v: JsValue)
    requires Present(v)
  {
    !v.Str? || Trim(v.s) != []
  }

  /** Falsy values never convert to a positive number. */
  lemma FalsyIsNotPositive(v: JsValue)
    requires !Truthy(v)
    ensures ToNumber(v).NaN? || ToNumber(v).value <= 0
  {
  }
}

=== FILE: workouts.dfy ===
/**
  The workout controller: the MET-based calorie estimate, the validation and
  payload building of `createWorkout`, the owner check of `deleteWorkout` and
  the totals of `getSummary`, over a collection of stored workouts.
 */
module Workouts {
  import opened Wrappers
  import opened JsValues
  import opened Folds

  // ---------------------------------------------------------------------------
  // Calorie estimate
  // ---------------------------------------------------------------------------

  /** Metabolic equivalents of the known workout types. */
  const MetTable: map<string, int> := map[
    "Running" := 10, "Cycling" := 8, "Walking" := 4, "Strength Training" := 6,
    "Yoga" := 3, "HIIT" := 12, "Swimming" := 9, "Dancing" := 7]

  const DefaultMet: int := 5

  /** `MET[type] || 5`, looking only at the table's own entries. */
  function Met(kind: string): (m: int)
    ensures kind in MetTable ==> m == MetTable[kind]
    ensures kind !in MetTable ==> m == DefaultMet
    ensures 3 <= m <= 12
  {
    if kind in MetTable then MetTable[kind] else DefaultMet
  }

  /** The intensity factor in hundredths: 0.85 for "Low", 1.15 for "High", 1 otherwise. */
  function IntensityPercent(intensity: string): (f: int)
    ensures f == 85 || f == 100 || f == 115
    ensures f == 85 <==> intensity == "Low"
    ensures f == 115 <==> intensity == "High"
  {
    if intensity == "Low" then 85 else if intensity == "High" then 115 else 100
  }

  /** `Math.round(p / 100)`: the integer nearest to p/100, halves rounded up. */
  function RoundHundredths(p: int): (r: int)
    ensures 100 * r - 50 <= p < 100 * r + 50
  {
    (p + 50) / 100
  }

  /**
    `estimateCalories(type, duration, intensity)`: MET times minutes times the
    intensity factor, rounded, and never below 0. A missing, zero or non-numeric
    duration counts as 0 minutes.
   */
  function EstimateCalories(kind: string, duration: JsValue, intensity: string): (r: int)
    ensures r >= 0
    ensures var exact := Met(kind) * OrZero(ToNumber(duration)) * IntensityPercent(intensity);
      (exact <= 0 ==> r == 0) && (exact >= 0 ==> 100 * r - 50 <= exact < 100 * r + 50)
    ensures OrZero(ToNumber(duration)) <= 0 ==> r == 0
  {
    var minutes := OrZero(ToNumber(duration));
    var exact := Met(kind) * minutes * IntensityPercent(intensity);
    SignOfProduct(Met(kind), minutes, IntensityPercent(intensity));
    var rounded := RoundHundredths(exact);
    if rounded > 0 then rounded else 0
  }

  /** With two positive factors, a product has the sign of the third. */
  lemma SignOfProduct(a: int, b: int, c: int)
    requires a > 0 && c > 0
    ensures b <= 0 ==> a * b * c <= 0
    ensures b >= 0 ==> a * b * c >= 0
  {
    if b <= 0 {
      assert a * b <= 0;
    }
  }

  // ---------------------------------------------------------------------------
  // The MET lookup as the source writes it
  // ---------------------------------------------------------------------------

  /**
    The names every object literal inherits from `Object.prototype`. Looking one
    of them up in the MET object yields a function or an object, which is
    truthy, so `|| 5` does not apply, and multiplying it gives NaN.
   */
  const InheritedNames: set<string> := {
    "constructor", "hasOwnProperty", "isPrototypeOf", "propertyIsEnumerable",
    "toLocaleString", "toString", "valueOf", "__proto__",
    "__defineGetter__", "__defineSetter__", "__lookupGetter__", "__lookupSetter__"}

  /** `MET[type] || 5` on the object literal, inherited properties included. */
  function MetAsWritten(kind: string): (m: Number)
    ensures kind in InheritedNames ==> m == NaN
    ensures kind !in InheritedNames ==> m == Finite(Met(kind))
  {
    if kind in MetTable then Finite(MetTable[kind])
    else if kind in InheritedNames then NaN
    else Finite(DefaultMet)
  }

  /** `estimateCalories` as written: `Math.max(0, NaN)` is NaN. */
  function EstimateCaloriesAsWritten(kind: string, duration: JsValue, intensity: string): (r: Number)
    ensures kind in InheritedNames ==> r == NaN
    ensures kind !in InheritedNames ==> r == Finite(EstimateCalories(kind, duration, intensity))
  {
    match MetAsWritten(kind)
    case NaN => NaN
    case Finite(m) =>
      var minutes := OrZero(ToNumber(duration));
      var rounded := RoundHundredths(m * minutes * IntensityPercent(intensity));
      Finite(if rounded > 0 then rounded else 0)
  }

  /**
    A 30-minute workout of type "toString" is estimated as NaN, and
    `Number(cal || 0)` then stores 0 calories; the table's default MET of 5
    gives 150.
   */
  lemma InheritedNameLosesEstimate()
    ensures EstimateCaloriesAsWritten("toString", Num(Finite(30)), "Medium") == NaN
    ensures OrZero(EstimateCaloriesAsWritten("toString", Num(Finite(30)), "Medium")) == 0
    ensures EstimateCalories("toString", Num(Finite(30)), "Medium") == 150
  {
    assert "toString" !in MetTable;
  }

  // ---------------------------------------------------------------------------
  // createWorkout
  // ---------------------------------------------------------------------------

  /** The fields of `req.body` that `createWorkout` reads; `kind` is the body's `type`. */
  datatype WorkoutBody = WorkoutBody(
    kind: Option<string>, duration: JsValue, distance: JsValue, calories: JsValue,
    intensity: Option<string>, date: Option<int>)

  /** The object passed to `Workout.create`. */
  datatype Payload = Payload(
    kind: string, duration: int, intensity: string, calories: int, date: int,
    distance: Option<int>, user: Option<UserId>)

  /** `type` is truthy: present and not the empty string. */
  predicate HasKind(body: WorkoutBody) {
    body.kind.Some? && body.kind.value != ""
  }

  /** `intensity || "Medium"`. */
  function IntensityOrDefault(intensity: Option<string>): (r: string)
    ensures r != ""
    ensures intensity.Some? && intensity.value != "" ==> r == intensity.value
    ensures intensity.None? || intensity.value == "" ==> r == "Medium"
  {
    if intensity.Some? && intensity.value != "" then intensity.value else "Medium"
  }

  /**
    The two 400 answers of `createWorkout`: a missing `type` or `duration` first,
    then a duration that is not a positive number.
   */
  function Validate(body: WorkoutBody): (r: Option<Reply>)
    ensures r.None? <==> HasKind(body) && ToNumber(body.duration).Finite? && ToNumber(body.duration).value > 0
    ensures r.Some? ==> r.value.status == 400
  {
    if !HasKind(body) || !Truthy(body.duration) then
      Some(Reply(400, "type and duration are required"))
    else if ToNumber(body.duration).NaN? || ToNumber(body.duration).value <= 0 then
      Some(Reply(400, "duration must be a positive number"))
    else None
  }

  /** `calories` is neither undefined, null nor a string of white space. */
  predicate CaloriesSupplied(calories: JsValue) {
    Present(calories) && PrintsNonBlank(calories)
  }

  /**
    `Number(cal || 0)` where `cal` is the supplied calories converted, or else the
    estimate for the untrimmed `type`, the duration and `intensity || "Medium"`.
   */
  function CaloriesFor(body: WorkoutBody, minutes: int): (r: int)
    requires body.kind.Some?
    ensures CaloriesSupplied(body.calories) ==> r == OrZero(ToNumber(body.calories))
    ensures !CaloriesSupplied(body.calories) ==>
      r == EstimateCalories(body.kind.value, Num(Finite(minutes)), IntensityOrDefault(body.intensity)) && r >= 0
  {
    var cal :=
      if CaloriesSupplied(body.calories) then ToNumber(body.calories)
      else Finite(EstimateCalories(body.kind.value, Num(Finite(minutes)), IntensityOrDefault(body.intensity)));
    OrZero(cal)
  }

  /** `distance` is kept only when it is present and converts to a number. */
  function DistanceFor(distance: JsValue): (r: Option<int>)
    ensures r.Some? <==> Present(distance) && ToNumber(distance).Finite?
    ensures r.Some? ==> r.value == ToNumber(distance).value
  {
    if Present(distance) && ToNumber(distance).Finite? then Some(ToNumber(distance).value) else None
  }

  /** `date ? new Date(date) : new Date()`. */
  function DateFor(date: Option<int>, now: int): (r: int)
    ensures date.Some? && date.value != 0 ==> r == date.value
    ensures date.None? || date.value == 0 ==> r == now
  {
    if date.Some? && date.value != 0 then date.value else now
  }

  /** The payload `createWorkout` builds from a body that passed validation. */
  function PayloadFor(body: WorkoutBody, caller: Option<UserId>, now: int): (p: Payload)
    requires Validate(body).None?
    ensures p.kind == Trim(body.kind.value) && p.user == caller
    ensures p.duration > 0 && p.duration == ToNumber(body.duration).value
    ensures p.intensity == IntensityOrDefault(body.intensity) && p.intensity != ""
    ensures p.calories == CaloriesFor(body, p.duration)
    ensures !CaloriesSupplied(body.calories) ==> p.calories >= 0
    ensures p.distance == DistanceFor(body.distance)
    ensures p.distance.Some? <==> Present(body.distance) && ToNumber(body.distance).Finite?
    ensures p.date == DateFor(body.date, now)
  {
    var minutes := ToNumber(body.duration).value;
    Payload(Trim(body.kind.value), minutes, IntensityOrDefault(body.intensity),
            CaloriesFor(body, minutes), DateFor(body.date, now), DistanceFor(body.distance), caller)
  }

  /**
    Validation and payload building of `createWorkout`: the payload starts with
    the five fixed fields, then `distance` and `user` are added when present.
   */
  method BuildPayload(body: WorkoutBody, caller: Option<UserId>, now: int) returns (r: Result<Payload, Reply>)
    ensures r.Failure? <==> Validate(body).Some?
    ensures r.Failure? ==> r.error == Validate(body).value
    ensures r.Success? ==> r.value == PayloadFor(body, caller, now)
    ensures r.Success? ==> r.value.duration > 0 && r.value.user == caller && r.value.intensity != ""
  {
    var invalid := Validate(body);
    if invalid.Some? {
      return Failure(invalid.value);
    }
    var minutes := ToNumber(body.duration).value;
    var payload := Payload(Trim(body.kind.value), minutes, IntensityOrDefault(body.intensity),
                           CaloriesFor(body, minutes), DateFor(body.date, now), None, None);
    var distance := DistanceFor(body.distance);
    if distance.Some? {
      payload := payload.(distance := distance);
    }
    if caller.Some? {
      payload := payload.(user := caller);
    }
    return Success(payload);
  }

  // ---------------------------------------------------------------------------
  // Stored workouts
  // ---------------------------------------------------------------------------

  /** A workout document as stored: the payload with the schema's defaults and timestamps filled in. */
  datatype StoredWorkout = StoredWorkout(
    id: string, user: Option<UserId>, kind: string, duration: int, distance: int,
    calories: int, intensity: string, date: int, createdAt: int)

  /** What the schema lets through: a non-empty `type` and one of the three intensities. */
  predicate SchemaAccepts(p: Payload) {
    p.kind != "" && (p.intensity == "Low" || p.intensity == "Medium" || p.intensity == "High")
  }

  /** The document `Workout.create(payload)` stores; `distance` defaults to 0. */
  function Stored(p: Payload, id: string, now: int): StoredWorkout {
    StoredWorkout(id, p.user, p.kind, p.duration, p.distance.GetOr(0), p.calories, p.intensity, p.date, now)
  }

  predicate IsHexDigit(c: char) {
    ('0' <= c <= '9') || ('a' <= c <= 'f') || ('A' <= c <= 'F')
  }

  /** `ObjectId.isValid` on a string: 24 hexadecimal digits. */
  predicate IsObjectIdString(s: string) {
    |s| == 24 && forall i :: 0 <= i < |s| ==> IsHexDigit(s[i])
  }

  /** `Workout.findById(id)`: the position of the record with this id. */
  function FindById(ws: seq<StoredWorkout>, id: string): (r: Option<nat>)
    ensures r.Some? ==> r.value < |ws| && ws[r.value].id == id
    ensures r.None? <==> forall k :: 0 <= k < |ws| ==> ws[k].id != id
  {
    if |ws| == 0 then None
    else if ws[0].id == id then Some(0)
    else match FindById(ws[1..], id)
      case None => None
      case Some(k) => Some(k + 1)
  }

  /**
    The owner check of `deleteWorkout`: refused only when both the caller and
    the record name a user and they differ.
   */
  predicate MayDelete(caller: Option<UserId>, owner: Option<UserId>) {
    !(caller.Some? && owner.Some? && owner != caller)
  }

  /** The owner may always delete; a different signed-in user never may. */
  lemma OwnershipRule(caller: Option<UserId>, owner: Option<UserId>)
    ensures caller.Some? && owner == caller ==> MayDelete(caller, owner)
    ensures caller.Some? && owner.Some? && owner != caller ==> !MayDelete(caller, owner)
    ensures caller.None? || owner.None? ==> MayDelete(caller, owner)
  {
  }

  ghost predicate UniqueWorkoutIds(ws: seq<StoredWorkout>) {
    forall i, j :: 0 <= i < j < |ws| ==> ws[i].id != ws[j].id
  }

  /** Every stored workout was accepted by `createWorkout`, so its duration is positive. */
  ghost predicate PositiveDurations(ws: seq<StoredWorkout>) {
    forall i :: 0 <= i < |ws| ==> ws[i].duration > 0
  }

  /** The workouts collection. */
  class WorkoutStore {
    var records: seq<StoredWorkout>

    ghost predicate Valid()
      reads this
    {
      UniqueWorkoutIds(records) && PositiveDurations(records)
    }

    constructor ()
      ensures Valid() && records == []
    {
      records := [];
    }

    /**
      `createWorkout`: answer 400 on a bad body; otherwise store the payload under
      the fresh id the database assigns (a schema rejection answers 500).
     */
    method CreateWorkout(body: WorkoutBody, caller: Option<UserId>, now: int, id: string)
      returns (r: Result<StoredWorkout, Reply>)
      requires Valid()
      requires forall k :: 0 <= k < |records| ==> records[k].id != id
      modifies this
      ensures Valid()
      ensures Validate(body).Some? ==> r == Failure(Validate(body).value) && records == old(records)
      ensures Validate(body).None? ==>
        var p := PayloadFor(body, caller, now);
        if SchemaAccepts(p) then r == Success(Stored(p, id, now)) && records == old(records) + [Stored(p, id, now)]
        else r == Failure(Reply(500, "Server error")) && records == old(records)
    {
      var built := BuildPayload(body, caller, now);
      match built
      case Failure(reply) =>
        r := Failure(reply);
      case Success(p) =>
        if SchemaAccepts(p) {
          var doc := Stored(p, id, now);
          records := records + [doc];
          r := Success(doc);
        } else {
          r := Failure(Reply(500, "Server error"));
        }
    }

    /** `deleteWorkout`: 400 for a malformed id, 404 when absent, 403 for another user's record, else delete. */
    method DeleteWorkout(id: string, caller: Option<UserId>) returns (reply: Reply)
      requires Valid()
      modifies this
      ensures Valid()
      ensures !IsObjectIdString(id) ==> reply == Reply(400, "Invalid workout ID") && records == old(records)
      ensures IsObjectIdString(id) && FindById(old(records), id).None? ==>
        reply == Reply(404, "Workout not found") && records == old(records)
      ensures IsObjectIdString(id) && FindById(old(records), id).Some? ==>
        var k := FindById(old(records), id).value;
        if MayDelete(caller, old(records)[k].user) then
          reply == Reply(200, "Deleted") && records == old(records)[..k] + old(records)[k + 1..]
        else
          reply == Reply(403, "Not allowed") && records == old(records)
    {
      if !IsObjectIdString(id) {
        return Reply(400, "Invalid workout ID");
      }
      var found := FindById(records, id);
      if found.None? {
        return Reply(404, "Workout not found");
      }
      var k := found.value;
      if !MayDelete(caller, records[k].user) {
        return Reply(403, "Not allowed");
      }
      records := records[..k] + records[k + 1..];
      return Reply(200, "Deleted");
    }
  }

  // ---------------------------------------------------------------------------
  // getSummary
  // ---------------------------------------------------------------------------

  /** The `$group` result, or the all-zero default when nothing matched. */
  datatype Summary = Summary(totalCalories: int, totalMinutes: int, totalDistance: int, count: nat)

  /** The `$match` stage: the caller's records (all, when signed out), with `date` within the optional bounds. */
  predicate SummaryMatch(w: StoredWorkout, caller: Option<UserId>, from: Option<int>, to: Option<int>) {
    (caller.None? || w.user == caller)
    && (from.None? || from.value <= w.date)
    && (to.None? || w.date <= to.value)
  }

  function Matching(ws: seq<StoredWorkout>, caller: Option<UserId>, from: Option<int>, to: Option<int>): (r: seq<StoredWorkout>)
    ensures |r| <= |ws|
    ensures forall w :: w in r <==> w in ws && SummaryMatch(w, caller, from, to)
  {
    if |ws| == 0 then []
    else
      var w := ws[|ws| - 1];
      Matching(ws[..|ws| - 1], caller, from, to) + (if SummaryMatch(w, caller, from, to) then [w] else [])
  }

  /** The `$match` stage as a test on one record. */
  function Matches(caller: Option<UserId>, from: Option<int>, to: Option<int>): StoredWorkout -> bool {
    (w: StoredWorkout) => SummaryMatch(w, caller, from, to)
  }

  /** Each matching record is kept as often as it is stored, and no other record is. */
  lemma {:induction false} MatchingCounts(ws: seq<StoredWorkout>, caller: Option<UserId>, from: Option<int>, to: Option<int>)
    ensures forall w ::
      multiset(Matching(ws, caller, from, to))[w]
        == if SummaryMatch(w, caller, from, to) then multiset(ws)[w] else 0
  {
    if |ws| > 0 {
      var init := ws[..|ws| - 1];
      var last := ws[|ws| - 1];
      MatchingCounts(init, caller, from, to);
      assert ws == init + [last];
      assert multiset(Matching(ws, caller, from, to))
        == multiset(Matching(init, caller, from, to)) + (if SummaryMatch(last, caller, from, to) then multiset{last} else multiset{});
    }
  }

  /** The matched records are as many as the stored records that pass the `$match` test. */
  lemma {:induction false} MatchingSize(ws: seq<StoredWorkout>, caller: Option<UserId>, from: Option<int>, to: Option<int>)
    ensures |Matching(ws, caller, from, to)| == Count(ws, Matches(caller, from, to))
  {
    if |ws| > 0 {
      MatchingSize(ws[..|ws| - 1], caller, from, to);
    }
  }

  function CaloriesOf(w: StoredWorkout): int { w.calories }
  function MinutesOf(w: StoredWorkout): int { w.duration }
  function DistanceOf(w: StoredWorkout): int { w.distance }

  /** `getSummary`: totals and count of the matching workouts. */
  function GetSummary(ws: seq<StoredWorkout>, caller: Option<UserId>, from: Option<int>, to: Option<int>): (s: Summary)
    ensures s.count == |Matching(ws, caller, from, to)|
    ensures s.count == Count(ws, Matches(caller, from, to))
    ensures s.count == 0 <==> forall k :: 0 <= k < |ws| ==> !SummaryMatch(ws[k], caller, from, to)
    ensures s.count == 0 ==> s == Summary(0, 0, 0, 0)
  {
    var m := Matching(ws, caller, from, to);
    MatchingSize(ws, caller, from, to);
    if |m| == 0 then Summary(0, 0, 0, 0)
    else
      assert m[0] in ws;
      Summary(Sum(m, CaloriesOf), Sum(m, MinutesOf), Sum(m, DistanceOf), |m|)
  }

  /** Over stored workouts, whose durations are positive, a summary of at least one workout has positive minutes. */
  lemma SummaryMinutesPositive(ws: seq<StoredWorkout>, caller: Option<UserId>, from: Option<int>, to: Option<int>)
    requires PositiveDurations(ws)
    ensures GetSummary(ws, caller, from, to).count > 0 ==> GetSummary(ws, caller, from, to).totalMinutes > 0
  {
    var m := Matching(ws, caller, from, to);
    if |m| > 0 {
      assert forall i :: 0 <= i < |m| ==> m[i] in ws;
      SumPositive(m, MinutesOf);
    }
  }
}

=== FILE: wrappers.dfy ===
/** Small wrappers and identifiers shared by the modules of the model. */
module Wrappers {

  /** A value that may be absent: an unset JavaScript field or variable. */
  datatype Option<+T> = None | Some(value: T) {
    function GetOr(default: T): T {
      match this
      case Some(v) => v
      case None => default
    }
  }

  /** Either a value or an error. */
  datatype Result<+R, +E> = Success(value: R) | Failure(error: E)

  /** What a request handler sends back: an HTTP status and the `message` of its JSON body. */
  datatype Reply = Reply(status: int, message: string)

  /** The `_id` of a user, as the controllers compare it. */
  type UserId = nat
}
